=== FILE: README.md ===
# DacPacBuilder build pipeline, modelled in Dafny

DacPacBuilder turns a SQL Server database project into a `.dacpac` package.
Its `build` command does four things in a fixed order:

1. It resolves where the package goes and creates that folder. An explicit
   output path ending in `.dacpac` (in any letter case) is the artifact itself.
   Any other path is a folder that receives `<project name>.dacpac`. With no
   output path, the folder is `bin` beside the `.sqlproj` manifest, or `bin`
   inside the project folder.
2. It discovers the input scripts. The inputs come from the `Build` items of
   a manifest when one is given, or when the project folder holds exactly one.
   Otherwise every `*.sql` file under the folder is used, except those under a
   `bin` folder.
3. It reads every input, in list order, and adds its text to one SQL model.
4. It packages that model once.

The model keeps this structure:

- `PathStrings` holds the .NET string and path operations the pipeline relies
  on: the last segment of a path, `Path.GetDirectoryName`, `Path.Combine`,
  `String.Replace` and the suffix tests.
- `FileSystems` holds the file-system state. `Disk` is its value and
  `FileSystem` is the object whose fields change in place when a directory is
  created or a package is written.
- `Manifests` holds the parsed project XML and the lazy projection of its
  `Build` items.
- `OutputPaths` covers `GetDefaultOutputPath`, `GetProjectName` and
  `EnusreOutputPath` (the name is spelled as in the program).
- `InputDiscovery` covers `GetInputFiles` and `TryGetInputFilesFromProject`.
- `SqlModels` is the SQL model that scripts accumulate in, and the compiler's
  decisions.
- `BuildOrchestration` covers `Build`: the specification functions
  `Step`/`Submit`/`Package`/`BuildRun`, and the imperative methods
  `AddInputs`/`BuildPackage`/`Build`, each proved equal to its specification.

Exceptions that escape the program become `Err` values of `Outcomes.BuildError`.
The `Include` projection of the manifest is lazy in the program. So a `Build`
element without `Include` is an input entry (`MissingInclude`) that fails only
when the build loop reaches it, after earlier inputs were already added.

Two behaviours follow from the code and are kept:

- When no output path is given, a project folder that does not exist is not
  reported as missing. Resolving the default output path creates
  `<folder>/bin` together with the folder itself. Discovery then scans an
  empty folder, and an empty model is packaged
  (`MissingProjectFolderBuildsEmptyPackage`). The same holds for an explicit
  output folder that lies inside the project folder. An output path elsewhere
  creates only that path, so the missing project folder then fails discovery
  with `DirectoryNotFound`.
- An output path made only of a file name such as `out.dacpac` has an empty
  directory name. `Directory.CreateDirectory("")` throws, so the build fails
  with `EmptyDirectoryPath` before anything is read (`BareArtifactNameFailsBuild`).

## Model

| member | source | states |
|---|---|---|
| PathStrings.LastSegment | DacPacBuilder/Program.cs:158 | the last segment after splitting on `\` and `/` contains no separator, is a suffix of the path, and is preceded by a separator unless it is the whole path |
| PathStrings.LastSegmentAfterSeparator | DacPacBuilder/Program.cs:158 | after a trailing separator, a separator-free tail is exactly the last segment |
| PathStrings.TrimEndSeparators | DacPacBuilder/Program.cs:149 | dropping trailing separators leaves a prefix that keeps at least the protected root, removes only separators, and no longer ends in one |
| PathStrings.DirectoryName | DacPacBuilder/Program.cs:149 | `Path.GetDirectoryName` is empty exactly when there is no separator; a path whose only separator starts it gives that root; otherwise the result is a prefix ending before the last separator, only separators lie between the two, and the result does not end in a separator, so `a//b` gives `a` |
| PathStrings.Combine | DacPacBuilder/Program.cs:153 | `Path.Combine` ends with its second argument and returns the first unchanged when the second is empty; for a relative, non-empty second argument and a non-empty first one, it starts with the first and joins them with exactly one separator (an empty first argument gives the second alone) |
| PathStrings.FullPath | DacPacBuilder/Program.cs:127 | a rooted include path is kept; a relative one is placed under the project directory |
| PathStrings.RemoveAll | DacPacBuilder/Program.cs:158 | `Replace(pattern, "")` never lengthens its input |
| PathStrings.RemoveAllShrinks | DacPacBuilder/Program.cs:158 | `Replace(".sqlproj", "")` never lengthens the name, keeps only characters of the input, and changes nothing when the pattern does not occur |
| PathStrings.NoMatchAtStart | DacPacBuilder/Program.cs:158 | when the pattern's first character does not recur in it, a non-empty name without the pattern followed by the pattern does not start with the pattern |
| PathStrings.RemoveAllKeepsHead | DacPacBuilder/Program.cs:158 | where no occurrence of such a pattern starts, the pass keeps the first character and continues with the rest |
| PathStrings.RemoveAllSkipsOccurrence | DacPacBuilder/Program.cs:158 | for any name that does not contain such a pattern, `name + pattern + rest` loses that occurrence and the pass continues after it, so interior occurrences go as well as a trailing one |
| PathStrings.EndsWithIffAppended | DacPacBuilder/Program.cs:103 | the suffix test holds exactly when the string is some text followed by the suffix |
| PathStrings.ExactSuffixMatchesIgnoringCase | DacPacBuilder/Program.cs:133 | a suffix that matches exactly also matches ignoring case |
| PathStrings.ContainsIffOccurrence | DacPacBuilder/Program.cs:98 | `Contains` holds exactly when the text occurs at some position |
| PathStrings.ContainsExtend | DacPacBuilder/Program.cs:98 | a path containing `/bin/` still contains it after anything is appended |
| OutputPaths.DefaultOutputPath | DacPacBuilder/Program.cs:145-154 | the default output ends with `bin` and lies under the manifest's folder, or under the project folder when the path is not a manifest |
| OutputPaths.ProjectName | DacPacBuilder/Program.cs:156-159 | the project name has no separator, is no longer than the last segment, and is that segment itself when it does not contain `.sqlproj` |
| OutputPaths.ManifestExtensionHeadIsUnique | DacPacBuilder/Program.cs:158 | `.sqlproj` holds no second `.`, so one occurrence cannot begin inside another |
| OutputPaths.ProjectNameOfManifest | DacPacBuilder/Program.cs:156-159 | the project name of `<dir>/<name>.sqlproj` is `<name>` for every separator-free name that does not itself contain `.sqlproj`, dotted names such as `Contoso.Database` included |
| OutputPaths.EffectiveOutputPath | DacPacBuilder/Program.cs:132 | an explicit output path is used as given; without one the default, which ends with `bin`, is used |
| OutputPaths.PlanOutput | DacPacBuilder/Program.cs:130-142 | the target always ends with `.dacpac` ignoring case; a `.dacpac` output path is the target and its parent is created; any other path is created and the target is that folder, one separator (none when the folder already ends in one) and `<project name>.dacpac`, directly inside it |
| OutputPaths.PackageFileName | DacPacBuilder/Program.cs:142 | `<name>.dacpac` combined onto any folder ends with `.dacpac` and is the last segment |
| OutputPaths.FileNameIsLastSegment | DacPacBuilder/Program.cs:142 | a separator-free file name combined onto any folder is the last segment of the result |
| OutputPaths.ExplicitOutputPathWins | DacPacBuilder/Program.cs:132-137 | an explicit `.dacpac` output path is the target whatever the project is |
| OutputPaths.PackageSuffixIgnoresCase | DacPacBuilder/Program.cs:133 | an output path ending in `.DACPAC` is treated as the artifact path |
| OutputPaths.BinFolderIsNotPackage | DacPacBuilder/Program.cs:153 | a default `bin` output folder is never taken for an artifact path |
| OutputPaths.ManifestPathParts | DacPacBuilder/Program.cs:148-149 | `<dir>/<name>.sqlproj` ends with `.sqlproj` and its directory name is `<dir>` |
| OutputPaths.DefaultOutputOfManifest | DacPacBuilder/Program.cs:145-154 | the default output of `<dir>/<name>.sqlproj` is `<dir>/bin` |
| OutputPaths.PackageInBinFolder | DacPacBuilder/Program.cs:142 | `<name>.dacpac` combined onto `<dir>/bin` is `<dir>/bin/<name>.dacpac` |
| OutputPaths.DefaultTargetOfManifest | DacPacBuilder/Program.cs:130-154 | with no output path, manifest `<dir>/<name>.sqlproj` creates `<dir>/bin` and targets `<dir>/bin/<name>.dacpac`, for every separator-free name not containing `.sqlproj`, dotted ones included |
| OutputPaths.ResolveOutput | DacPacBuilder/Program.cs:130-143 | resolution fails exactly when creating the planned folder fails, with that error and the file system unchanged; on success the planned folder exists and the planned target is returned; only directories are ever added |
| OutputPaths.BareArtifactNameFails | DacPacBuilder/Program.cs:133-136 | a separator-free `*.dacpac` output path fails with `EmptyDirectoryPath` and changes nothing |
| OutputPaths.ResolveOutputIdempotent | DacPacBuilder/Program.cs:136 | resolving the output a second time succeeds, returns the same target and changes nothing |
| OutputPaths.EnsureOutputPath | DacPacBuilder/Program.cs:130-143 | the method's new file-system state and result are exactly those of `ResolveOutput` |
| FileSystems.WithDirectory | DacPacBuilder/Program.cs:136 | `Directory.CreateDirectory` succeeds exactly when the path is non-empty and no file or artifact stands on it or an ancestor; it adds the path and all its ancestors and nothing else |
| FileSystems.WithDirectoryPreservesValid | DacPacBuilder/Program.cs:140 | creating a directory keeps the file system well formed (ancestors exist; no path is two of a directory, a text file and a package) |
| FileSystems.WithDirectoryIdempotent | DacPacBuilder/Program.cs:140 | creating a directory that exists succeeds and changes nothing |
| FileSystems.FileSystem.CreateDirectory | DacPacBuilder/Program.cs:136 | the in-place directory creation reaches the state `WithDirectory` describes, or fails with its error and changes nothing |
| FileSystems.FileSystem.WriteArtifact | DacPacBuilder/Program.cs:84 | writing the package stores it at its path, replaces a text file standing there, and changes no other file or artifact |
| Manifests.DescendantsOrSelf | DacPacBuilder/Program.cs:124 | the document-order walk starts at the element itself |
| Manifests.DescendantsOfAllMembers | DacPacBuilder/Program.cs:124 | the walk of a list of siblings visits exactly the elements of each sibling's walk |
| Manifests.DescendantsOrSelfMembers | DacPacBuilder/Program.cs:124 | the walk visits exactly the element itself and every element in the walk of one of its children |
| Manifests.IncludeOf | DacPacBuilder/Program.cs:126-127 | a `Build` element yields a file input exactly when it has `Include`, resolved against the project folder |
| Manifests.Includes | DacPacBuilder/Program.cs:124-127 | the projection yields at most one input per element |
| Manifests.IncludesMembership | DacPacBuilder/Program.cs:124-127 | every `Build` element yields an input, and every input comes from a `Build` element |
| Manifests.BuildItems | DacPacBuilder/Program.cs:124-127 | the document yields at most one input per element of its walk |
| Manifests.BuildItemsMembers | DacPacBuilder/Program.cs:124-127 | every `Build` element anywhere in the document yields an input, and every input comes from a `Build` element of the document |
| Manifests.IncludesAppend | DacPacBuilder/Program.cs:124-125 | the projection distributes over concatenation, so it keeps document order |
| Manifests.BuildItemsIgnoreNamespace | DacPacBuilder/Program.cs:124 | moving every element into another namespace leaves the input list unchanged |
| Manifests.ManifestOrderPreserved | DacPacBuilder/Program.cs:120-128 | a root holding two `Build` items yields their inputs in document order |
| InputDiscovery.ChooseStrategy | DacPacBuilder/Program.cs:101-118 | an existing `.sqlproj` file is the manifest; a missing path fails; exactly one manifest in the folder is used; zero or several fall back to the scan |
| InputDiscovery.ManifestSuffixIsCaseSensitive | DacPacBuilder/Program.cs:103 | a path ending in `.SQLPROJ` is not taken as a manifest and fails as a folder when it is not a directory |
| InputDiscovery.InBinFolderIffOccurrence | DacPacBuilder/Program.cs:98 | a path is excluded exactly when `/bin/` or `\bin\` occurs at some position of it |
| InputDiscovery.WithoutBin | DacPacBuilder/Program.cs:97-98 | the scan filter keeps exactly the paths not under `/bin/` or `\bin\` |
| InputDiscovery.WithoutBinAppend | DacPacBuilder/Program.cs:98 | the filter distributes over concatenation, so it keeps scan order |
| InputDiscovery.ScanUnderBinFolderIsEmpty | DacPacBuilder/Program.cs:98 | a project folder that itself lies under a `bin` folder scans to no input |
| InputDiscovery.ScanEntries | DacPacBuilder/Program.cs:97-98 | the scan's inputs are the filtered paths, in order |
| InputDiscovery.ReadManifest | DacPacBuilder/Program.cs:123-127 | a missing manifest and malformed XML are errors; otherwise the inputs are the document's `Build` items |
| InputDiscovery.Discover | DacPacBuilder/Program.cs:90-99 | discovery fails exactly with the strategy's error, and a scan yields only files under the folder outside `bin` |
| InputDiscovery.ManifestFileIsRead | DacPacBuilder/Program.cs:103-106 | a project path that is an existing `.sqlproj` file is discovered by reading that manifest, with its folder as the base of relative includes |
| InputDiscovery.SingleManifestIsRead | DacPacBuilder/Program.cs:109-113 | a folder with exactly one manifest is built from that manifest's items |
| InputDiscovery.AmbiguousManifestsFallBackToScan | DacPacBuilder/Program.cs:109-117 | a folder with zero or several manifests is scanned instead of failing |
| SqlModels.SqlModel.constructor | DacPacBuilder/Program.cs:71-74 | a new model targets the given version and holds no script |
| SqlModels.SqlModel.AddObjects | DacPacBuilder/Program.cs:80 | a script joins the model, at its end, exactly when the compiler accepts it |
| BuildOrchestration.Step | DacPacBuilder/Program.cs:76-81 | one pass of the loop succeeds exactly when the input has `Include`, can be read and is accepted, and then appends its text; the missing `Include` gives its own error, and the unreadable file and the refused script each give their own error naming the file |
| BuildOrchestration.Submit | DacPacBuilder/Program.cs:76-81 | a loop that completes adds one text per input |
| BuildOrchestration.SubmitAppend | DacPacBuilder/Program.cs:76-81 | the loop over `a + b` is the loop over `a`, then over `b` only if `a` succeeded |
| BuildOrchestration.SubmitSucceeds | DacPacBuilder/Program.cs:76-81 | a loop that completes read every input and added every text, in order |
| BuildOrchestration.SubmitStopsAtFirstFailure | DacPacBuilder/Program.cs:76-81 | the first failing input decides the error, whatever follows it |
| BuildOrchestration.TextsOfPermutation | DacPacBuilder/Program.cs:76-81 | two orderings of the same inputs have texts that are two orderings of the same texts |
| BuildOrchestration.SameInputsSameTexts | DacPacBuilder/Program.cs:76-81 | a manifest and a scan listing the same files, in any order, put the same texts into the model |
| BuildOrchestration.Package | DacPacBuilder/Program.cs:84-87 | packaging succeeds exactly when the compiler can package and no directory stands at the path; it writes one artifact there, replacing a text file at that path, and changes nothing else |
| BuildOrchestration.BuildRun | DacPacBuilder/Program.cs:66-88 | a build only adds directories and artifacts; a failed build leaves files and artifacts unchanged; a successful one writes exactly one artifact, at the planned target ending in `.dacpac`, and removes only a text file standing there |
| BuildOrchestration.ResolutionFailureEndsBuild | DacPacBuilder/Program.cs:68 | a failed output resolution ends the build with its error and leaves the file system unchanged |
| BuildOrchestration.DiscoveryFailureEndsBuild | DacPacBuilder/Program.cs:68-69 | a failed discovery ends the build with its error, with only the output folder created and nothing packaged |
| BuildOrchestration.BareArtifactNameFailsBuild | DacPacBuilder/Program.cs:133-136 | a build with a bare `*.dacpac` output path fails with `EmptyDirectoryPath` and changes nothing |
| BuildOrchestration.BuildRunAfterDiscovery | DacPacBuilder/Program.cs:69-87 | once the output is resolved and the inputs found, the build ends as the loop and packaging end |
| BuildOrchestration.BuiltOnlyFromEveryInput | DacPacBuilder/Program.cs:66-88 | a package is built only when every discovered input was read and accepted; it holds exactly their texts in list order and is the only artifact written |
| BuildOrchestration.FailedInputAbortsBuild | DacPacBuilder/Program.cs:68-81 | the first failing input ends the build with its error, with nothing packaged and the output folder already created |
| BuildOrchestration.OutputFolderCreatedFirst | DacPacBuilder/Program.cs:68-69 | once output resolution succeeds, the output folder exists afterwards however discovery and the loop turn out, and no other directory is created |
| BuildOrchestration.BuildPreservesValid | DacPacBuilder/Program.cs:66-88 | a build keeps the file system well formed |
| BuildOrchestration.MissingFolderIsCreated | DacPacBuilder/Program.cs:132-140 | resolving the default output of a folder creates the folder itself, as the parent of `bin` |
| BuildOrchestration.DefaultPlanOfFolder | DacPacBuilder/Program.cs:145-153 | with no output path, a folder project outputs to `<folder>/bin/<project name>.dacpac` |
| BuildOrchestration.MissingProjectFolderBuildsEmptyPackage | DacPacBuilder/Program.cs:66-69 | a project folder that does not exist is created, scans to no input, and an empty package is written |
| BuildOrchestration.AddInputs | DacPacBuilder/Program.cs:76-81 | the in-place loop ends with the model `Submit` describes, or with the error of the first failing input |
| BuildOrchestration.BuildPackage | DacPacBuilder/Program.cs:84-87 | the in-place packaging reaches the state and outcome `Package` describes |
| BuildOrchestration.Build | DacPacBuilder/Program.cs:66-88 | the in-place build reaches exactly the file system and outcome `BuildRun` describes |

## Left out

- The command line (`Main` and the command set-up, Program.cs:16-64) is not modelled: option parsing, the default target version and the handler wiring. `Build` takes its three arguments directly.
- Console logging (`Console.WriteLine`) is not modelled; it has no effect on the result.
- The SQL compiler (`TSqlModel`, `AddObjects`, `DacPackageExtensions.BuildPackage`, package metadata) is reduced to two given decisions: whether a script is accepted, and whether a model can be packaged.
- Parsing XML text (`XDocument.Load`) is a given function from text to an element tree, or to nothing for malformed text.
- Directory listings (`Directory.GetFiles` with `*.sqlproj` and with `*.sql` recursively) are given sequences in the platform's enumeration order. Glob matching and the link between a listing and the files that exist are not modelled.
- Path semantics are reduced to `/` and `\` separators: drive letters, UNC roots, collapsing of `.` and `..`, the collapsing of repeated separators elsewhere than before the last segment, and `GetDirectoryName` returning null for a root are not modelled. `Combine` joins with `/`.
- File-system lookups compare path text exactly: a trailing separator, or the other separator character, names a different directory or file. So a missing folder written `proj/` is not found by discovery in the model, though .NET would create it as the parent of `proj/bin` and then scan it.
- PathStrings.EndsWith: compares characters ordinally; the program's `EndsWith(".sqlproj")` (Program.cs:103, 148) passes no `StringComparison` and so compares under the current culture, whose rules for ignorable characters are not modelled.
- PathStrings.FullPath: does not reject a relative project folder as a base the way `Path.GetFullPath(path, basePath)` does, and does not normalise the result.
- PathStrings.ToLowerInvariant: folds ASCII letters only, not the full invariant culture.
- PathStrings.RemoveAll: the single left-to-right pass of `String.Replace` is its definition; what is proved about it is in `RemoveAllShrinks` and `RemoveAllSkipsOccurrence`, the latter covering both trailing and interior occurrences of the pattern.
- InputDiscovery.Discover: its own contract covers the error cases and the scan; the two manifest cases are stated by `ManifestFileIsRead` (an existing `.sqlproj` project path) and `SingleManifestIsRead` (a folder with exactly one manifest), with `ReadManifest` giving what reading a manifest yields.
- The process's exit code and the exception messages are not modelled; each escaping exception is one `BuildError` value.

=== FILE: build_orchestration.dfy ===
/**
 * Build: resolve the output path, discover the inputs, feed every input's
 * text into one model in list order, and package the model once.
 */
module BuildOrchestration {
  import opened Outcomes
  import opened PathStrings
  import opened SqlModels
  import opened FileSystems
  import opened Manifests
  import opened OutputPaths
  import opened InputDiscovery

  datatype Outcome = Built(artifactPath: string) | Failed(error: BuildError)

  /** A build's effect: the file system afterwards and how the build ended. */
  datatype Run = Run(disk: Disk, outcome: Outcome)

  /** One pass of the build loop: read the file, then add its text to the model. */
  function Step(files: map<string, string>, entry: Entry, version: SqlServerVersion, compiler: Compiler,
                scripts: seq<string>): (r: Result<seq<string>>)
    ensures r.Ok? <==> entry.File? && entry.path in files && compiler.accepts(version, scripts, files[entry.path])
    ensures r.Ok? ==> r.value == scripts + [files[entry.path]]
    ensures entry.MissingInclude? ==> r == Err(MissingIncludeAttribute)
    ensures entry.File? && entry.path !in files ==> r == Err(ReadFailed(entry.path))
    ensures entry.File? && entry.path in files && !compiler.accepts(version, scripts, files[entry.path]) ==>
      r == Err(Rejected(entry.path))
  {
    match entry
    case MissingInclude => Err(MissingIncludeAttribute)
    case File(path) =>
      if path !in files then Err(ReadFailed(path))
      else if compiler.accepts(version, scripts, files[path]) then Ok(scripts + [files[path]])
      else Err(Rejected(path))
  }

  /** The whole loop over `entries`, starting from a model holding `scripts`; the first failure ends it. */
  function Submit(files: map<string, string>, entries: seq<Entry>, version: SqlServerVersion, compiler: Compiler,
                  scripts: seq<string>): (r: Result<seq<string>>)
    ensures r.Ok? ==> |r.value| == |scripts| + |entries|
    decreases |entries|
  {
    if entries == [] then Ok(scripts)
    else match Step(files, entries[0], version, compiler, scripts)
      case Err(e) => Err(e)
      case Ok(next) => Submit(files, entries[1..], version, compiler, next)
  }

  predicate AllReadable(files: map<string, string>, entries: seq<Entry>) {
    forall i :: 0 <= i < |entries| ==> entries[i].File? && entries[i].path in files
  }

  /** The texts of the inputs, in input order. */
  function Texts(files: map<string, string>, entries: seq<Entry>): seq<string>
    requires AllReadable(files, entries)
  {
    seq(|entries|, i requires 0 <= i < |entries| => files[entries[i].path])
  }

  /** Running the loop over `a + b` is running it over `a`, then over `b` if `a` succeeded. */
  lemma {:induction false} SubmitAppend(files: map<string, string>, a: seq<Entry>, b: seq<Entry>,
                                        version: SqlServerVersion, compiler: Compiler, scripts: seq<string>)
    ensures var first := Submit(files, a, version, compiler, scripts);
      Submit(files, a + b, version, compiler, scripts)
        == if first.Err? then first else Submit(files, b, version, compiler, first.value)
    decreases |a|
  {
    if a == [] {
      assert a + b == b;
    } else {
      assert (a + b)[0] == a[0];
      assert (a + b)[1..] == a[1..] + b;
      var step := Step(files, a[0], version, compiler, scripts);
      if step.Ok? {
        SubmitAppend(files, a[1..], b, version, compiler, step.value);
      }
    }
  }

  /** A loop that completes has read every input and added every text, in order. */
  lemma {:induction false} SubmitSucceeds(files: map<string, string>, entries: seq<Entry>,
                                          version: SqlServerVersion, compiler: Compiler, scripts: seq<string>)
    requires Submit(files, entries, version, compiler, scripts).Ok?
    ensures AllReadable(files, entries)
    ensures Submit(files, entries, version, compiler, scripts).value == scripts + Texts(files, entries)
    decreases |entries|
  {
    if entries != [] {
      var next := Step(files, entries[0], version, compiler, scripts).value;
      SubmitSucceeds(files, entries[1..], version, compiler, next);
      assert entries == [entries[0]] + entries[1..];
      forall i | 0 <= i < |entries| ensures entries[i].File? && entries[i].path in files {
        if i > 0 {
          assert entries[i] == entries[1..][i - 1];
        }
      }
      assert Texts(files, entries) == [files[entries[0].path]] + Texts(files, entries[1..]);
    }
  }

  /** Fail-fast: the first input whose step fails decides the loop's error, whatever follows it. */
  lemma SubmitStopsAtFirstFailure(files: map<string, string>, entries: seq<Entry>, k: nat,
                                  version: SqlServerVersion, compiler: Compiler, scripts: seq<string>)
    requires k < |entries|
    requires Submit(files, entries[..k], version, compiler, scripts).Ok?
    requires Step(files, entries[k], version, compiler, Submit(files, entries[..k], version, compiler, scripts).value).Err?
    ensures Submit(files, entries, version, compiler, scripts)
      == Step(files, entries[k], version, compiler, Submit(files, entries[..k], version, compiler, scripts).value)
  {
    SubmitAppend(files, entries[..k], entries[k..], version, compiler, scripts);
    assert entries[..k] + entries[k..] == entries;
    assert entries[k..][0] == entries[k];
  }

  lemma TextsAppend(files: map<string, string>, a: seq<Entry>, b: seq<Entry>)
    requires AllReadable(files, a) && AllReadable(files, b)
    ensures AllReadable(files, a + b)
    ensures Texts(files, a + b) == Texts(files, a) + Texts(files, b)
  {
    forall i | 0 <= i < |a + b| ensures (a + b)[i].File? && (a + b)[i].path in files {
      if i >= |a| {
        assert (a + b)[i] == b[i - |a|];
      }
    }
  }

  lemma ReadableSlices(files: map<string, string>, s: seq<Entry>, j: nat)
    requires AllReadable(files, s) && j < |s|
    ensures AllReadable(files, s[..j]) && AllReadable(files, s[j + 1..])
    ensures Texts(files, s) == Texts(files, s[..j]) + [files[s[j].path]] + Texts(files, s[j + 1..])
  {
    assert forall i :: 0 <= i < j ==> s[..j][i] == s[i];
    var tail := s[j + 1..];
    assert forall i :: 0 <= i < |tail| ==> tail[i] == s[j + 1 + i];
  }

  /** Taking out one matching element on each side keeps two sequences permutations of each other. */
  lemma MultisetRemoveFirst<T>(a: seq<T>, b: seq<T>, j: nat)
    requires multiset(a) == multiset(b) && 0 < |a| && j < |b| && a[0] == b[j]
    ensures multiset(a[1..]) == multiset(b[..j] + b[j + 1..])
  {
    assert b == b[..j] + [b[j]] + b[j + 1..];
    assert a == [a[0]] + a[1..];
    assert multiset(a[1..]) == multiset(a) - multiset([a[0]]);
    assert multiset(b[..j] + b[j + 1..]) == multiset(b) - multiset([b[j]]);
  }

  /** Putting one element back on each side, anywhere, keeps the multisets equal. */
  lemma MultisetInsert<T>(x: T, s: seq<T>, u: seq<T>, v: seq<T>)
    requires multiset(s) == multiset(u + v)
    ensures multiset([x] + s) == multiset(u + [x] + v)
  {
  }

  /** The texts of two orderings of the same inputs are two orderings of the same texts. */
  lemma {:induction false} TextsOfPermutation(files: map<string, string>, a: seq<Entry>, b: seq<Entry>)
    requires AllReadable(files, a) && AllReadable(files, b)
    requires multiset(a) == multiset(b)
    ensures multiset(Texts(files, a)) == multiset(Texts(files, b))
    decreases |a|
  {
    if a == [] {
      assert |b| == |multiset(b)| == 0;
    } else {
      assert a[0] in multiset(b);
      var j :| 0 <= j < |b| && b[j] == a[0];
      var rest := b[..j] + b[j + 1..];
      var t := files[a[0].path];
      assert AllReadable(files, b[..j]) && AllReadable(files, b[j + 1..])
        && Texts(files, b) == Texts(files, b[..j]) + [t] + Texts(files, b[j + 1..]) by {
        ReadableSlices(files, b, j);
      }
      assert AllReadable(files, a[1..]) && Texts(files, a) == [t] + Texts(files, a[1..]) by {
        ReadableSlices(files, a, 0);
        assert a[..0] == [] && Texts(files, []) == [];
      }
      assert AllReadable(files, rest) && Texts(files, rest) == Texts(files, b[..j]) + Texts(files, b[j + 1..]) by {
        TextsAppend(files, b[..j], b[j + 1..]);
      }
      assert multiset(Texts(files, a[1..])) == multiset(Texts(files, rest)) by {
        MultisetRemoveFirst(a, b, j);
        TextsOfPermutation(files, a[1..], rest);
      }
      MultisetInsert(t, Texts(files, a[1..]), Texts(files, b[..j]), Texts(files, b[j + 1..]));
    }
  }

  /**
   * Building from a manifest and from a folder scan that list the same files,
   * in any order, adds the same texts to the model.
   */
  lemma SameInputsSameTexts(files: map<string, string>, fromManifest: seq<Entry>, fromScan: seq<Entry>,
                            version: SqlServerVersion, compiler: Compiler)
    requires multiset(fromManifest) == multiset(fromScan)
    requires Submit(files, fromManifest, version, compiler, []).Ok?
    requires Submit(files, fromScan, version, compiler, []).Ok?
    ensures multiset(Submit(files, fromManifest, version, compiler, []).value)
         == multiset(Submit(files, fromScan, version, compiler, []).value)
  {
    SubmitSucceeds(files, fromManifest, version, compiler, []);
    SubmitSucceeds(files, fromScan, version, compiler, []);
    TextsOfPermutation(files, fromManifest, fromScan);
  }

  /**
   * DacPackageExtensions.BuildPackage: one artifact at `path`, replacing any
   * file there, unless the compiler or the path refuses.
   */
  function Package(d: Disk, path: string, version: SqlServerVersion, scripts: seq<string>, compiler: Compiler): (run: Run)
    ensures run.outcome.Built? <==> compiler.packages(version, scripts) && path !in d.dirs
    ensures run.outcome.Built? ==>
      run == Run(d.(files := d.files - {path}, artifacts := d.artifacts[path := Artifact(version, scripts)]), Built(path))
    ensures run.outcome.Failed? ==> run == Run(d, Failed(PackagingFailed(path)))
  {
    if compiler.packages(version, scripts) && path !in d.dirs then
      Run(d.(files := d.files - {path}, artifacts := d.artifacts[path := Artifact(version, scripts)]), Built(path))
    else
      Run(d, Failed(PackagingFailed(path)))
  }

  /** What Build does to the file system, and how it ends. */
  function BuildRun(d: Disk, projectPath: string, outputPath: Option<string>, version: SqlServerVersion,
                    parse: XmlParser, compiler: Compiler): (run: Run)
    ensures run.disk == d.(dirs := run.disk.dirs, files := run.disk.files, artifacts := run.disk.artifacts)
    ensures d.dirs <= run.disk.dirs
    ensures run.outcome.Failed? ==> run.disk.files == d.files && run.disk.artifacts == d.artifacts
    ensures run.outcome.Built? ==>
      && run.outcome.artifactPath == PlanOutput(projectPath, outputPath).target
      && run.disk.files == d.files - {run.outcome.artifactPath}
      && EndsWithIgnoreCase(run.outcome.artifactPath, PackageExtension)
      && run.disk.artifacts.Keys == d.artifacts.Keys + {run.outcome.artifactPath}
  {
    var (d1, target) := ResolveOutput(d, projectPath, outputPath);
    if target.Err? then Run(d1, Failed(target.error))
    else match Discover(d1, projectPath, parse)
      case Err(e) => Run(d1, Failed(e))
      case Ok(entries) =>
        match Submit(d1.files, entries, version, compiler, [])
        case Err(e) => Run(d1, Failed(e))
        case Ok(scripts) => Package(d1, target.value, version, scripts, compiler)
  }

  /**
   * A build that produces an artifact read and added every input in order,
   * and wrote exactly one artifact, holding exactly those texts.
   */
  lemma BuiltOnlyFromEveryInput(d: Disk, projectPath: string, outputPath: Option<string>, version: SqlServerVersion,
                                parse: XmlParser, compiler: Compiler)
    requires BuildRun(d, projectPath, outputPath, version, parse, compiler).outcome.Built?
    ensures var run := BuildRun(d, projectPath, outputPath, version, parse, compiler);
      var inputs := Discover(ResolveOutput(d, projectPath, outputPath).0, projectPath, parse);
      && inputs.Ok?
      && AllReadable(d.files, inputs.value)
      && Submit(d.files, inputs.value, version, compiler, []) == Ok(Texts(d.files, inputs.value))
      && run.disk.artifacts == d.artifacts[run.outcome.artifactPath := Artifact(version, Texts(d.files, inputs.value))]
  {
    var d1 := ResolveOutput(d, projectPath, outputPath).0;
    var target := ResolveOutput(d, projectPath, outputPath).1;
    assert target.Ok?;
    assert d1.files == d.files && d1.artifacts == d.artifacts;
    var inputs := Discover(d1, projectPath, parse);
    assert inputs.Ok?;
    var submitted := Submit(d.files, inputs.value, version, compiler, []);
    assert submitted.Ok?;
    SubmitSucceeds(d.files, inputs.value, version, compiler, []);
    assert [] + Texts(d.files, inputs.value) == Texts(d.files, inputs.value);
    assert BuildRun(d, projectPath, outputPath, version, parse, compiler)
        == Package(d1, target.value, version, submitted.value, compiler);
  }

  /**
   * The first input that cannot be read, lacks its Include, or is rejected
   * ends the build with that error: nothing is packaged, yet the output
   * folder has already been created.
   */
  lemma FailedInputAbortsBuild(d: Disk, projectPath: string, outputPath: Option<string>, version: SqlServerVersion,
                               parse: XmlParser, compiler: Compiler, k: nat)
    requires ResolveOutput(d, projectPath, outputPath).1.Ok?
    requires var inputs := Discover(ResolveOutput(d, projectPath, outputPath).0, projectPath, parse);
      && inputs.Ok? && k < |inputs.value|
      && Submit(d.files, inputs.value[..k], version, compiler, []).Ok?
      && Step(d.files, inputs.value[k], version, compiler, Submit(d.files, inputs.value[..k], version, compiler, []).value).Err?
    ensures var inputs := Discover(ResolveOutput(d, projectPath, outputPath).0, projectPath, parse).value;
      var prefix := Submit(d.files, inputs[..k], version, compiler, []).value;
      BuildRun(d, projectPath, outputPath, version, parse, compiler)
        == Run(ResolveOutput(d, projectPath, outputPath).0, Failed(Step(d.files, inputs[k], version, compiler, prefix).error))
    ensures PlanOutput(projectPath, outputPath).directory in BuildRun(d, projectPath, outputPath, version, parse, compiler).disk.dirs
  {
    var d1 := ResolveOutput(d, projectPath, outputPath).0;
    var entries := Discover(d1, projectPath, parse).value;
    SubmitStopsAtFirstFailure(d.files, entries, k, version, compiler, []);
  }

  /**
   * The output folder is created before discovery: once output resolution
   * succeeds the folder exists afterwards, however discovery, the inputs or
   * packaging turn out, and Build creates no other directory.
   */
  lemma OutputFolderCreatedFirst(d: Disk, projectPath: string, outputPath: Option<string>, version: SqlServerVersion,
                                 parse: XmlParser, compiler: Compiler)
    requires ResolveOutput(d, projectPath, outputPath).1.Ok?
    ensures var run := BuildRun(d, projectPath, outputPath, version, parse, compiler);
      && PlanOutput(projectPath, outputPath).directory in run.disk.dirs
      && run.disk.dirs == WithDirectory(d, PlanOutput(projectPath, outputPath).directory).value.dirs
  {
    var d1 := ResolveOutput(d, projectPath, outputPath).0;
    var target := ResolveOutput(d, projectPath, outputPath).1.value;
    assert ResolveOutput(d, projectPath, outputPath) == (d1, Ok(target));
    var inputs := Discover(d1, projectPath, parse);
    if inputs.Err? {
      assert BuildRun(d, projectPath, outputPath, version, parse, compiler) == Run(d1, Failed(inputs.error));
    } else {
      BuildRunAfterDiscovery(d, projectPath, outputPath, version, parse, compiler, d1, target, inputs.value);
    }
  }

  /** Build keeps the file system well formed: no path becomes both a directory and a file. */
  lemma BuildPreservesValid(d: Disk, projectPath: string, outputPath: Option<string>, version: SqlServerVersion,
                            parse: XmlParser, compiler: Compiler)
    requires d.Valid()
    ensures BuildRun(d, projectPath, outputPath, version, parse, compiler).disk.Valid()
  {
    var plan := PlanOutput(projectPath, outputPath);
    if WithDirectory(d, plan.directory).Ok? {
      WithDirectoryPreservesValid(d, plan.directory);
    }
  }

  /**
   * A project folder that does not exist is not an error: resolving the
   * default output path creates it (as the parent of its `bin` folder), the
   * scan then finds nothing, and an empty model is packaged.
   */
  lemma MissingProjectFolderBuildsEmptyPackage(d: Disk, projectPath: string, version: SqlServerVersion,
                                               parse: XmlParser, compiler: Compiler)
    requires projectPath != "" && !IsSeparator(projectPath[|projectPath| - 1])
    requires !EndsWith(projectPath, ManifestExtension)
    requires projectPath !in d.dirs && projectPath !in d.manifestsIn && projectPath !in d.sqlFilesUnder
    requires WithDirectory(d, projectPath + "/bin").Ok?
    requires compiler.packages(version, [])
    requires PlanOutput(projectPath, None).target !in WithDirectory(d, projectPath + "/bin").value.dirs
    ensures var target := Combine(projectPath + "/bin", ProjectName(projectPath) + PackageExtension);
      var run := BuildRun(d, projectPath, None, version, parse, compiler);
      && run.outcome == Built(target)
      && projectPath in run.disk.dirs
      && run.disk.artifacts[target] == Artifact(version, [])
  {
    var d1 := WithDirectory(d, projectPath + "/bin").value;
    var target := Combine(projectPath + "/bin", ProjectName(projectPath) + PackageExtension);
    MissingFolderIsCreated(d, projectPath);
    AmbiguousManifestsFallBackToScan(d1, projectPath, parse);
    assert ScanEntries(SqlFilesUnder(d1, projectPath)) == [];
    assert Submit(d1.files, [], version, compiler, []) == Ok([]);
    BuildRunAfterDiscovery(d, projectPath, None, version, parse, compiler, d1, target, []);
  }

  /** A failed output resolution ends the build with its error, before discovery, leaving the file system as it was. */
  lemma ResolutionFailureEndsBuild(d: Disk, projectPath: string, outputPath: Option<string>, version: SqlServerVersion,
                                   parse: XmlParser, compiler: Compiler)
    requires ResolveOutput(d, projectPath, outputPath).1.Err?
    ensures BuildRun(d, projectPath, outputPath, version, parse, compiler)
         == Run(d, Failed(ResolveOutput(d, projectPath, outputPath).1.error))
  {
  }

  /** A failed discovery ends the build with its error: nothing is read or packaged, the output folder stays created. */
  lemma DiscoveryFailureEndsBuild(d: Disk, projectPath: string, outputPath: Option<string>, version: SqlServerVersion,
                                  parse: XmlParser, compiler: Compiler)
    requires ResolveOutput(d, projectPath, outputPath).1.Ok?
    requires Discover(ResolveOutput(d, projectPath, outputPath).0, projectPath, parse).Err?
    ensures var d1 := ResolveOutput(d, projectPath, outputPath).0;
      BuildRun(d, projectPath, outputPath, version, parse, compiler)
        == Run(d1, Failed(Discover(d1, projectPath, parse).error))
  {
  }

  /** A bare `*.dacpac` output path ends the build with `EmptyDirectoryPath` before anything is read. */
  lemma BareArtifactNameFailsBuild(d: Disk, projectPath: string, name: string, version: SqlServerVersion,
                                   parse: XmlParser, compiler: Compiler)
    requires NoSeparator(name) && EndsWithIgnoreCase(name, PackageExtension)
    ensures BuildRun(d, projectPath, Some(name), version, parse, compiler) == Run(d, Failed(EmptyDirectoryPath))
  {
    BareArtifactNameFails(d, projectPath, name);
  }

  /** Once the output is resolved and the inputs discovered, Build ends as submission and packaging do. */
  lemma BuildRunAfterDiscovery(d: Disk, projectPath: string, outputPath: Option<string>, version: SqlServerVersion,
                               parse: XmlParser, compiler: Compiler, d1: Disk, target: string, entries: seq<Entry>)
    requires ResolveOutput(d, projectPath, outputPath) == (d1, Ok(target))
    requires Discover(d1, projectPath, parse) == Ok(entries)
    ensures var submitted := Submit(d1.files, entries, version, compiler, []);
      && (submitted.Err? ==> BuildRun(d, projectPath, outputPath, version, parse, compiler) == Run(d1, Failed(submitted.error)))
      && (submitted.Ok? ==> BuildRun(d, projectPath, outputPath, version, parse, compiler)
                            == Package(d1, target, version, submitted.value, compiler))
  {
  }

  /** Resolving the default output of a missing folder creates the folder itself, as the parent of `bin`. */
  lemma MissingFolderIsCreated(d: Disk, projectPath: string)
    requires projectPath != "" && !IsSeparator(projectPath[|projectPath| - 1])
    requires !EndsWith(projectPath, ManifestExtension)
    requires WithDirectory(d, projectPath + "/bin").Ok?
    ensures var d1 := WithDirectory(d, projectPath + "/bin").value;
      && ResolveOutput(d, projectPath, None)
         == (d1, Ok(Combine(projectPath + "/bin", ProjectName(projectPath) + PackageExtension)))
      && projectPath in d1.dirs
  {
    DefaultPlanOfFolder(projectPath);
    assert ResolveOutput(d, projectPath, None).1.Ok?;
    ParentIsAncestor(projectPath, "/bin");
  }

  /** The output plan of a folder project with no output path: its `bin` folder. */
  lemma DefaultPlanOfFolder(projectPath: string)
    requires projectPath != "" && !IsSeparator(projectPath[|projectPath| - 1])
    requires !EndsWith(projectPath, ManifestExtension)
    ensures PlanOutput(projectPath, None)
      == OutputPlan(projectPath + "/bin", Combine(projectPath + "/bin", ProjectName(projectPath) + PackageExtension))
  {
    var binPath := projectPath + "/bin";
    assert DefaultOutputPath(projectPath) == binPath;
    BinFolderIsNotPackage(projectPath);
  }

  /** TSqlModel.AddObjects for each input in turn, then BuildPackage; `model` is the build's own. */
  method BuildPackage(fs: FileSystem, path: string, model: SqlModel, compiler: Compiler) returns (outcome: Outcome)
    modifies fs`files, fs`artifacts
    ensures Run(fs.State(), outcome) == Package(old(fs.State()), path, model.version, model.scripts, compiler)
  {
    if compiler.packages(model.version, model.scripts) && path !in fs.dirs {
      fs.WriteArtifact(path, Artifact(model.version, model.scripts));
      return Built(path);
    }
    return Failed(PackagingFailed(path));
  }

  /** Build: output path first, then discovery, then every input in list order, then one packaging call. */
  method Build(fs: FileSystem, projectPath: string, outputPath: Option<string>, version: SqlServerVersion,
               parse: XmlParser, compiler: Compiler) returns (outcome: Outcome)
    modifies fs
    ensures Run(fs.State(), outcome) == BuildRun(old(fs.State()), projectPath, outputPath, version, parse, compiler)
  {
    ghost var d0 := fs.State();
    var outputFilePath := EnsureOutputPath(fs, projectPath, outputPath);
    if outputFilePath.Err? {
      return Failed(outputFilePath.error);
    }
    var inputs := Discover(fs.State(), projectPath, parse);
    if inputs.Err? {
      return Failed(inputs.error);
    }
    var dbFiles := inputs.value;
    ghost var d1 := fs.State();
    BuildRunAfterDiscovery(d0, projectPath, outputPath, version, parse, compiler, d1, outputFilePath.value, dbFiles);
    var sqlModel := new SqlModel(version);
    var failure := AddInputs(fs, dbFiles, sqlModel, compiler);
    if failure.Some? {
      return Failed(failure.value);
    }
    outcome := BuildPackage(fs, outputFilePath.value, sqlModel, compiler);
  }

  /**
   * The loop of Build: each input in list order is read and added to the
   * model; the first one that lacks its Include, cannot be read or is
   * rejected ends the loop with its error.
   */
  method AddInputs(fs: FileSystem, dbFiles: seq<Entry>, sqlModel: SqlModel, compiler: Compiler)
    returns (failure: Option<BuildError>)
    modifies sqlModel
    ensures var submitted := Submit(fs.files, dbFiles, sqlModel.version, compiler, old(sqlModel.scripts));
      && (failure.None? <==> submitted.Ok?)
      && (failure.None? ==> sqlModel.scripts == submitted.value)
      && (failure.Some? ==> submitted == Err(failure.value))
  {
    for i := 0 to |dbFiles|
      invariant Submit(fs.files, dbFiles, sqlModel.version, compiler, old(sqlModel.scripts))
             == Submit(fs.files, dbFiles[i..], sqlModel.version, compiler, sqlModel.scripts)
    {
      assert dbFiles[i..][0] == dbFiles[i] && dbFiles[i..][1..] == dbFiles[i + 1..];
      var scriptFile := dbFiles[i];
      if scriptFile.MissingInclude? {
        return Some(MissingIncludeAttribute);
      }
      if scriptFile.path !in fs.files {
        return Some(ReadFailed(scriptFile.path));
      }
      var script := fs.files[scriptFile.path];
      var accepted := sqlModel.AddObjects(script, compiler);
      if !accepted {
        return Some(Rejected(scriptFile.path));
      }
    }
    failure := None;
  }
}

=== FILE: file_systems.dfy ===
/**
 * The part of the file system the pipeline touches: directories, text files,
 * the platform's directory listings, and the artifacts written by packaging.
 */
module FileSystems {
  import opened Outcomes
  import opened PathStrings
  import opened SqlModels

  /**
   * A snapshot of the file system. `manifestsIn[d]` is what
   * Directory.GetFiles(d, "*.sqlproj") lists and `sqlFilesUnder[d]` what
   * Directory.GetFiles(d, "*.sql", SearchOption.AllDirectories) lists, both in
   * the platform's enumeration order; a directory missing from a map lists nothing.
   */
  datatype Disk = Disk(
    dirs: set<string>,
    files: map<string, string>,
    manifestsIn: map<string, seq<string>>,
    sqlFilesUnder: map<string, seq<string>>,
    artifacts: map<string, Artifact>)
  {
    /**
     * Every directory's ancestors exist, and each path is at most one of a
     * directory, a text file and a packaged model.
     */
    ghost predicate Valid() {
      && (forall p :: p in dirs ==> Ancestors(p) <= dirs)
      && dirs !! files.Keys
      && dirs !! artifacts.Keys
      && files.Keys !! artifacts.Keys
    }
  }

  /** The proper ancestors of a path: each prefix that ends just before a separator. */
  function Ancestors(p: string): set<string> {
    set i | 0 < i < |p| && IsSeparator(p[i]) :: p[..i]
  }

  lemma AncestorsClosed(p: string, a: string)
    requires a in Ancestors(p)
    ensures Ancestors(a) <= Ancestors(p)
  {
    var i :| 0 < i < |p| && IsSeparator(p[i]) && a == p[..i];
    forall x | x in Ancestors(a) ensures x in Ancestors(p) {
      var j :| 0 < j < |a| && IsSeparator(a[j]) && x == a[..j];
      assert p[j] == a[j] && x == p[..j];
    }
  }

  /** A non-empty path is an ancestor of any path that continues it after a separator. */
  lemma ParentIsAncestor(dir: string, rest: string)
    requires dir != "" && rest != "" && IsSeparator(rest[0])
    ensures dir in Ancestors(dir + rest)
  {
    var p := dir + rest;
    assert IsSeparator(p[|dir|]) && p[..|dir|] == dir;
  }

  /**
   * Directory.CreateDirectory: the path and all its ancestors become
   * directories. The empty path, and a path where a file already stands,
   * are errors.
   */
  function WithDirectory(d: Disk, path: string): (r: Result<Disk>)
    ensures r.Ok? <==> path != "" && ({path} + Ancestors(path)) !! (d.files.Keys + d.artifacts.Keys)
    ensures r.Ok? ==> r.value == d.(dirs := d.dirs + {path} + Ancestors(path))
  {
    if path == "" then Err(EmptyDirectoryPath)
    else
      var made := {path} + Ancestors(path);
      if made !! d.files.Keys && made !! d.artifacts.Keys then Ok(d.(dirs := d.dirs + made))
      else Err(PathIsFile(path))
  }

  lemma WithDirectoryPreservesValid(d: Disk, path: string)
    requires d.Valid() && WithDirectory(d, path).Ok?
    ensures WithDirectory(d, path).value.Valid()
  {
    var d' := WithDirectory(d, path).value;
    forall p | p in d'.dirs ensures Ancestors(p) <= d'.dirs {
      if p in Ancestors(path) {
        AncestorsClosed(path, p);
      }
    }
  }

  /** Creating a directory that already exists succeeds and changes nothing. */
  lemma WithDirectoryIdempotent(d: Disk, path: string)
    requires d.Valid() && path in d.dirs && path != ""
    ensures WithDirectory(d, path) == Ok(d)
  {
    var made := {path} + Ancestors(path);
    assert made <= d.dirs;
    assert d.dirs + made == d.dirs;
    assert d.(dirs := d.dirs) == d;
  }

  /** The global file system, updated in place by directory creation and packaging. */
  class FileSystem {
    var dirs: set<string>
    var files: map<string, string>
    var manifestsIn: map<string, seq<string>>
    var sqlFilesUnder: map<string, seq<string>>
    var artifacts: map<string, Artifact>

    function State(): Disk
      reads this
    {
      Disk(dirs, files, manifestsIn, sqlFilesUnder, artifacts)
    }

    constructor (d: Disk)
      ensures State() == d
    {
      dirs, files, manifestsIn, sqlFilesUnder, artifacts :=
        d.dirs, d.files, d.manifestsIn, d.sqlFilesUnder, d.artifacts;
    }

    method CreateDirectory(path: string) returns (failure: Option<BuildError>)
      modifies this`dirs
      ensures failure.None? ==> WithDirectory(old(State()), path) == Ok(State())
      ensures failure.Some? ==> WithDirectory(old(State()), path) == Err(failure.value) && State() == old(State())
    {
      if path == "" {
        return Some(EmptyDirectoryPath);
      }
      var made := {path} + Ancestors(path);
      if !(made !! files.Keys && made !! artifacts.Keys) {
        return Some(PathIsFile(path));
      }
      dirs := dirs + made;
      failure := None;
    }

    /** Writes a packaged model at `path`, replacing whatever file or artifact was there. */
    method WriteArtifact(path: string, artifact: Artifact)
      modifies this`files, this`artifacts
      ensures files == old(files) - {path}
      ensures artifacts == old(artifacts)[path := artifact]
    {
      files := files - {path};
      artifacts := artifacts[path := artifact];
    }
  }
}

=== FILE: input_discovery.dfy ===
/**
 * GetInputFiles and TryGetInputFilesFromProject: choose between reading a
 * manifest and scanning the folder, and produce the ordered input list.
 */
module InputDiscovery {
  import opened Outcomes
  import opened PathStrings
  import opened FileSystems
  import opened Manifests
  import opened OutputPaths

  /** How the input list is obtained; chosen once per build. */
  datatype Strategy = Manifest(baseDir: string, manifestPath: string) | Scan(root: string)

  /** Parses XML text into its root element, or None when it is not well-formed. */
  type XmlParser = string -> Option<XElement>

  /** Directory.GetFiles(dir, "*.sqlproj"), for a path already known to be a directory. */
  function ManifestsIn(d: Disk, dir: string): seq<string> {
    if dir in d.manifestsIn then d.manifestsIn[dir] else []
  }

  /** Directory.GetFiles(dir, "*.sql", SearchOption.AllDirectories), likewise. */
  function SqlFilesUnder(d: Disk, dir: string): seq<string> {
    if dir in d.sqlFilesUnder then d.sqlFilesUnder[dir] else []
  }

  /**
   * TryGetInputFilesFromProject's decision. An existing file ending in
   * ".sqlproj" is the manifest; otherwise a directory with exactly one
   * manifest uses it; zero or several manifests fall back to a scan. A path
   * that is neither makes Directory.GetFiles throw.
   */
  function ChooseStrategy(d: Disk, projectPath: string): (r: Result<Strategy>)
    ensures EndsWith(projectPath, ManifestExtension) && projectPath in d.files ==>
      r == Ok(Manifest(DirectoryName(projectPath), projectPath))
    ensures !(EndsWith(projectPath, ManifestExtension) && projectPath in d.files) ==>
      if projectPath !in d.dirs then r == Err(DirectoryNotFound(projectPath))
      else if |ManifestsIn(d, projectPath)| == 1 then r == Ok(Manifest(projectPath, ManifestsIn(d, projectPath)[0]))
      else r == Ok(Scan(projectPath))
  {
    if EndsWith(projectPath, ManifestExtension) && projectPath in d.files then
      Ok(Manifest(DirectoryName(projectPath), projectPath))
    else if projectPath !in d.dirs then
      Err(DirectoryNotFound(projectPath))
    else
      var projectFiles := ManifestsIn(d, projectPath);
      if |projectFiles| == 1 then Ok(Manifest(projectPath, projectFiles[0])) else Ok(Scan(projectPath))
  }

  /** A scanned path under a build-output folder, in either separator convention. */
  predicate InBinFolder(p: string) {
    Contains(p, "/bin/") || Contains(p, "\\bin\\")
  }

  /** A path is under a `bin` folder exactly when `/bin/` or `\bin\` occurs at some position of it. */
  lemma InBinFolderIffOccurrence(p: string)
    ensures InBinFolder(p) <==>
      exists i :: OccursAt(p, "/bin/", i) || OccursAt(p, "\\bin\\", i)
  {
    ContainsIffOccurrence(p, "/bin/");
    ContainsIffOccurrence(p, "\\bin\\");
  }

  /** The Where filter of GetInputFiles: drop paths under a `bin` folder, keep the rest in order. */
  function WithoutBin(paths: seq<string>): (r: seq<string>)
    ensures |r| <= |paths|
    ensures forall p :: p in r <==> p in paths && !InBinFolder(p)
  {
    if paths == [] then []
    else (if InBinFolder(paths[0]) then [] else [paths[0]]) + WithoutBin(paths[1..])
  }

  /** The filter preserves scan order: it distributes over concatenation. */
  lemma {:induction false} WithoutBinAppend(a: seq<string>, b: seq<string>)
    ensures WithoutBin(a + b) == WithoutBin(a) + WithoutBin(b)
    decreases |a|
  {
    if a == [] {
      assert a + b == b;
    } else {
      assert (a + b)[0] == a[0];
      assert (a + b)[1..] == a[1..] + b;
      WithoutBinAppend(a[1..], b);
    }
  }

  /** A project folder that itself lies under a `bin` folder scans to nothing. */
  lemma {:induction false} ScanUnderBinFolderIsEmpty(root: string, paths: seq<string>)
    requires InBinFolder(root)
    requires forall p :: p in paths ==> StartsWith(p, root)
    ensures WithoutBin(paths) == []
    decreases |paths|
  {
    if paths != [] {
      var p := paths[0];
      assert p in paths && StartsWith(p, root);
      assert p == root + p[|root|..];
      if Contains(root, "/bin/") {
        ContainsExtend(root, p[|root|..], "/bin/");
      } else {
        ContainsExtend(root, p[|root|..], "\\bin\\");
      }
      ScanUnderBinFolderIsEmpty(root, paths[1..]);
    }
  }

  /** Every scanned path becomes an input, in scan order. */
  function ScanEntries(paths: seq<string>): (r: seq<Entry>)
    ensures |r| == |WithoutBin(paths)|
    ensures forall i :: 0 <= i < |r| ==> r[i] == File(WithoutBin(paths)[i])
  {
    var kept := WithoutBin(paths);
    seq(|kept|, i requires 0 <= i < |kept| => File(kept[i]))
  }

  /** XDocument.Load followed by the Build-item projection. */
  function ReadManifest(d: Disk, baseDir: string, manifestPath: string, parse: XmlParser): (r: Result<seq<Entry>>)
    ensures manifestPath !in d.files ==> r == Err(ManifestNotFound(manifestPath))
    ensures manifestPath in d.files && parse(d.files[manifestPath]).None? ==> r == Err(ManifestMalformed(manifestPath))
    ensures manifestPath in d.files && parse(d.files[manifestPath]).Some? ==>
      r == Ok(BuildItems(parse(d.files[manifestPath]).value, baseDir))
  {
    if manifestPath !in d.files then Err(ManifestNotFound(manifestPath))
    else match parse(d.files[manifestPath])
      case None => Err(ManifestMalformed(manifestPath))
      case Some(document) => Ok(BuildItems(document, baseDir))
  }

  /** GetInputFiles: the input list of a build, or the error discovery raises. */
  function Discover(d: Disk, projectPath: string, parse: XmlParser): (r: Result<seq<Entry>>)
    ensures ChooseStrategy(d, projectPath).Err? ==> r == Err(ChooseStrategy(d, projectPath).error)
    ensures ChooseStrategy(d, projectPath) == Ok(Scan(projectPath)) ==>
      r.Ok? && forall e :: e in r.value ==> e.File? && e.path in SqlFilesUnder(d, projectPath) && !InBinFolder(e.path)
  {
    match ChooseStrategy(d, projectPath)
    case Err(e) => Err(e)
    case Ok(Manifest(baseDir, manifestPath)) => ReadManifest(d, baseDir, manifestPath, parse)
    case Ok(Scan(root)) => Ok(ScanEntries(SqlFilesUnder(d, root)))
  }

  /** A folder holding exactly one manifest is built from that manifest's items, not from a scan. */
  lemma SingleManifestIsRead(d: Disk, dir: string, manifestPath: string, parse: XmlParser)
    requires !(EndsWith(dir, ManifestExtension) && dir in d.files) && dir in d.dirs
    requires ManifestsIn(d, dir) == [manifestPath]
    ensures Discover(d, dir, parse) == ReadManifest(d, dir, manifestPath, parse)
  {
  }

  /** A project path that is an existing `.sqlproj` file is read as the manifest, relative to its folder. */
  lemma ManifestFileIsRead(d: Disk, projectPath: string, parse: XmlParser)
    requires EndsWith(projectPath, ManifestExtension) && projectPath in d.files
    ensures Discover(d, projectPath, parse) == ReadManifest(d, DirectoryName(projectPath), projectPath, parse)
  {
  }

  /** A folder with zero or several manifests falls back to the scan instead of failing. */
  lemma AmbiguousManifestsFallBackToScan(d: Disk, dir: string, parse: XmlParser)
    requires !(EndsWith(dir, ManifestExtension) && dir in d.files) && dir in d.dirs
    requires |ManifestsIn(d, dir)| != 1
    ensures Discover(d, dir, parse) == Ok(ScanEntries(SqlFilesUnder(d, dir)))
  {
  }

  /**
   * The manifest suffix is matched case-sensitively: an existing file named
   * `*.SQLPROJ` is not taken as the manifest, and listing it as a folder fails.
   */
  lemma ManifestSuffixIsCaseSensitive(d: Disk, projectPath: string)
    requires EndsWith(projectPath, ".SQLPROJ") && projectPath !in d.dirs
    ensures ChooseStrategy(d, projectPath) == Err(DirectoryNotFound(projectPath))
  {
    var n := |projectPath|;
    assert projectPath[n - 8..][7] == 'J' && ManifestExtension[7] == 'j';
  }
}

=== FILE: manifests.dfy ===
/**
 * Reading a .sqlproj manifest: the already-parsed XML tree, the document-order
 * walk of XContainer.Descendants(), and the lazily projected Build items.
 */
module Manifests {
  import opened PathStrings

  /** An XML element: its namespace, local name, unqualified attributes and child elements. */
  datatype XElement = XElement(ns: string, localName: string, attributes: map<string, string>, children: seq<XElement>)

  /**
   * One item of the projected input list. The projection of the source is
   * lazy, so a Build element without an Include attribute is not an error
   * until the build loop reaches it.
   */
  datatype Entry = File(path: string) | MissingInclude

  /** The element followed by all its descendants, in document (pre-)order. */
  function DescendantsOrSelf(e: XElement): (r: seq<XElement>)
    ensures |r| >= 1 && r[0] == e
    decreases e, 1
  {
    [e] + DescendantsOfAll(e.children)
  }

  /** The descendants-or-self of each element in turn. */
  function DescendantsOfAll(es: seq<XElement>): seq<XElement>
    decreases es, 0
  {
    if es == [] then [] else DescendantsOrSelf(es[0]) + DescendantsOfAll(es[1..])
  }

  /** The walk of a list visits exactly the subtrees of its elements. */
  lemma {:induction false} DescendantsOfAllMembers(es: seq<XElement>, x: XElement)
    ensures x in DescendantsOfAll(es) <==> exists c :: c in es && x in DescendantsOrSelf(c)
    decreases |es|
  {
    if es != [] {
      DescendantsOfAllMembers(es[1..], x);
      assert DescendantsOfAll(es) == DescendantsOrSelf(es[0]) + DescendantsOfAll(es[1..]);
      if x in DescendantsOfAll(es) {
        if x in DescendantsOrSelf(es[0]) {
          assert es[0] in es;
        } else {
          var c :| c in es[1..] && x in DescendantsOrSelf(c);
          assert c in es;
        }
      }
      if exists c :: c in es && x in DescendantsOrSelf(c) {
        var c :| c in es && x in DescendantsOrSelf(c);
        if c != es[0] {
          assert c in es[1..];
        }
      }
    }
  }

  /** Descendants() misses nothing: the walk holds the element and every child's whole subtree, and only those. */
  lemma DescendantsOrSelfMembers(e: XElement, x: XElement)
    ensures x in DescendantsOrSelf(e) <==> x == e || exists c :: c in e.children && x in DescendantsOrSelf(c)
  {
    DescendantsOfAllMembers(e.children, x);
  }

  /** `element.Attribute("Include").Value` resolved against the project directory. */
  function IncludeOf(e: XElement, baseDir: string): (r: Entry)
    ensures r.File? <==> "Include" in e.attributes
    ensures r.File? ==> r.path == FullPath(e.attributes["Include"], baseDir)
  {
    if "Include" in e.attributes then File(FullPath(e.attributes["Include"], baseDir)) else MissingInclude
  }

  /** The Where(LocalName == "Build") / Select pipeline over a list of elements. */
  function Includes(es: seq<XElement>, baseDir: string): (r: seq<Entry>)
    ensures |r| <= |es|
  {
    if es == [] then []
    else
      (if es[0].localName == "Build" then [IncludeOf(es[0], baseDir)] else [])
      + Includes(es[1..], baseDir)
  }

  /** Every Build element yields an item, and every item comes from a Build element. */
  lemma {:induction false} IncludesMembership(es: seq<XElement>, baseDir: string)
    ensures forall e :: e in es && e.localName == "Build" ==> IncludeOf(e, baseDir) in Includes(es, baseDir)
    ensures forall x :: x in Includes(es, baseDir) ==>
      exists e :: e in es && e.localName == "Build" && x == IncludeOf(e, baseDir)
    decreases |es|
  {
    if es != [] {
      IncludesMembership(es[1..], baseDir);
      var head := if es[0].localName == "Build" then [IncludeOf(es[0], baseDir)] else [];
      assert Includes(es, baseDir) == head + Includes(es[1..], baseDir);
      forall e | e in es && e.localName == "Build" ensures IncludeOf(e, baseDir) in Includes(es, baseDir) {
        if e != es[0] {
          assert e in es[1..];
        }
      }
      forall x | x in Includes(es, baseDir)
        ensures exists e :: e in es && e.localName == "Build" && x == IncludeOf(e, baseDir)
      {
        if x in head {
          assert es[0] in es;
        } else {
          assert x in Includes(es[1..], baseDir);
          var e :| e in es[1..] && e.localName == "Build" && x == IncludeOf(e, baseDir);
          assert e in es;
        }
      }
    }
  }

  /** The projection keeps document order: it distributes over concatenation. */
  lemma {:induction false} IncludesAppend(a: seq<XElement>, b: seq<XElement>, baseDir: string)
    ensures Includes(a + b, baseDir) == Includes(a, baseDir) + Includes(b, baseDir)
    decreases |a|
  {
    if a == [] {
      assert a + b == b;
    } else {
      var head := if a[0].localName == "Build" then [IncludeOf(a[0], baseDir)] else [];
      assert (a + b)[0] == a[0] && (a + b)[1..] == a[1..] + b;
      assert Includes(a + b, baseDir) == head + Includes(a[1..] + b, baseDir);
      IncludesAppend(a[1..], b, baseDir);
      assert head + (Includes(a[1..], baseDir) + Includes(b, baseDir))
          == (head + Includes(a[1..], baseDir)) + Includes(b, baseDir);
    }
  }

  /** GetInputFilesFromProject: the input list a parsed manifest declares. */
  function BuildItems(document: XElement, baseDir: string): (r: seq<Entry>)
    ensures |r| <= |DescendantsOrSelf(document)|
  {
    Includes(DescendantsOrSelf(document), baseDir)
  }

  /**
   * The manifest's inputs are exactly the projections of the Build elements
   * found anywhere in the document.
   */
  lemma BuildItemsMembers(document: XElement, baseDir: string)
    ensures forall e :: e in DescendantsOrSelf(document) && e.localName == "Build" ==>
      IncludeOf(e, baseDir) in BuildItems(document, baseDir)
    ensures forall x :: x in BuildItems(document, baseDir) ==>
      exists e :: e in DescendantsOrSelf(document) && e.localName == "Build" && x == IncludeOf(e, baseDir)
  {
    IncludesMembership(DescendantsOrSelf(document), baseDir);
  }

  /** The same tree with every element moved into namespace `ns`. */
  function InNamespace(e: XElement, ns: string): (r: XElement)
    ensures r.localName == e.localName && r.attributes == e.attributes && r.ns == ns
    decreases e, 1
  {
    XElement(ns, e.localName, e.attributes, AllInNamespace(e.children, ns))
  }

  function AllInNamespace(es: seq<XElement>, ns: string): (r: seq<XElement>)
    ensures |r| == |es|
    decreases es, 0
  {
    if es == [] then [] else [InNamespace(es[0], ns)] + AllInNamespace(es[1..], ns)
  }

  /** Build items are matched by local name only: the namespace never changes the result. */
  lemma {:induction false} BuildItemsIgnoreNamespace(document: XElement, ns: string, baseDir: string)
    ensures BuildItems(InNamespace(document, ns), baseDir) == BuildItems(document, baseDir)
    decreases document, 1
  {
    var e := document;
    var e' := InNamespace(e, ns);
    IncludesAppend([e'], DescendantsOfAll(e'.children), baseDir);
    IncludesAppend([e], DescendantsOfAll(e.children), baseDir);
    AllIgnoreNamespace(e.children, ns, baseDir);
  }

  lemma {:induction false} AllIgnoreNamespace(es: seq<XElement>, ns: string, baseDir: string)
    ensures Includes(DescendantsOfAll(AllInNamespace(es, ns)), baseDir) == Includes(DescendantsOfAll(es), baseDir)
    decreases es, 0
  {
    if es != [] {
      var es' := AllInNamespace(es, ns);
      assert es'[0] == InNamespace(es[0], ns) && es'[1..] == AllInNamespace(es[1..], ns);
      IncludesAppend(DescendantsOrSelf(es'[0]), DescendantsOfAll(es'[1..]), baseDir);
      IncludesAppend(DescendantsOrSelf(es[0]), DescendantsOfAll(es[1..]), baseDir);
      BuildItemsIgnoreNamespace(es[0], ns, baseDir);
      AllIgnoreNamespace(es[1..], ns, baseDir);
    }
  }

  /** A lone element contributes its own item if it is a Build element, and nothing otherwise. */
  lemma IncludesOfOne(e: XElement, baseDir: string)
    ensures Includes([e], baseDir) == if e.localName == "Build" then [IncludeOf(e, baseDir)] else []
  {
    assert [e][1..] == [];
  }

  /** An element without children is its own and only descendant. */
  lemma LeafDescendants(e: XElement)
    requires e.children == []
    ensures DescendantsOrSelf(e) == [e]
  {
  }

  /** A project whose root holds two Build items yields their inputs in document order. */
  lemma ManifestOrderPreserved(root: XElement, first: XElement, second: XElement, baseDir: string)
    requires root.localName != "Build" && root.children == [first, second]
    requires first.localName == "Build" && first.children == []
    requires second.localName == "Build" && second.children == []
    ensures BuildItems(root, baseDir) == [IncludeOf(first, baseDir), IncludeOf(second, baseDir)]
  {
    LeafDescendants(first);
    LeafDescendants(second);
    assert DescendantsOfAll([second]) == [second] by {
      assert [second][1..] == [];
    }
    assert DescendantsOfAll(root.children) == [first] + [second] by {
      assert root.children[1..] == [second];
    }
    assert DescendantsOrSelf(root) == ([root] + [first]) + [second];
    IncludesAppend([root] + [first], [second], baseDir);
    IncludesAppend([root], [first], baseDir);
    IncludesOfOne(root, baseDir);
    IncludesOfOne(first, baseDir);
    IncludesOfOne(second, baseDir);
  }
}

=== FILE: outcomes.dfy ===
/** Failures the build pipeline can surface, and the wrappers that carry them. */
module Outcomes {

  /** One constructor per exception the pipeline lets escape. */
  datatype BuildError =
    | EmptyDirectoryPath              // Directory.CreateDirectory was handed the empty string
    | PathIsFile(path: string)        // a file or artifact stands where a directory must be created
    | DirectoryNotFound(path: string) // Directory.GetFiles on a path that is not a directory
    | ManifestNotFound(path: string)  // XDocument.Load of a project file that does not exist
    | ManifestMalformed(path: string) // XDocument.Load of a project file that is not well-formed XML
    | MissingIncludeAttribute         // a Build element without an Include attribute
    | ReadFailed(path: string)        // File.ReadAllText of a path that is not a file
    | Rejected(path: string)          // TSqlModel.AddObjects refused the text of this file
    | PackagingFailed(path: string)   // DacPackageExtensions.BuildPackage could not write this artifact

  datatype Result<T> = Ok(value: T) | Err(error: BuildError)

  datatype Option<T> = None | Some(value: T)
}

=== FILE: output_paths.dfy ===
/**
 * Where the package goes: the default output folder, the project name, the
 * artifact path, and the directory creation that comes with resolving it.
 */
module OutputPaths {
  import opened Outcomes
  import opened PathStrings
  import opened FileSystems

  const ManifestExtension := ".sqlproj"
  const PackageExtension := ".dacpac"

  /** GetDefaultOutputPath: a `bin` folder beside the manifest, or inside the project folder. */
  function DefaultOutputPath(projectPath: string): (r: string)
    ensures EndsWith(r, "bin")
    ensures EndsWith(projectPath, ManifestExtension) && DirectoryName(projectPath) != "" ==>
      StartsWith(r, DirectoryName(projectPath)) && |r| > |DirectoryName(projectPath)|
    ensures !EndsWith(projectPath, ManifestExtension) && projectPath != "" ==>
      StartsWith(r, projectPath) && |r| > |projectPath|
  {
    var basePath := if EndsWith(projectPath, ManifestExtension) then DirectoryName(projectPath) else projectPath;
    Combine(basePath, "bin")
  }

  /**
   * GetProjectName: the last path segment with every occurrence of ".sqlproj"
   * removed (String.Replace removes interior occurrences too).
   */
  function ProjectName(projectPath: string): (r: string)
    ensures NoSeparator(r)
    ensures |r| <= |LastSegment(projectPath)|
    ensures !Contains(LastSegment(projectPath), ManifestExtension) ==> r == LastSegment(projectPath)
  {
    var name := RemoveAll(LastSegment(projectPath), ManifestExtension);
    RemoveAllShrinks(LastSegment(projectPath), ManifestExtension);
    NoSeparatorOfChars(LastSegment(projectPath), name);
    name
  }

  /** ".sqlproj" cannot overlap itself: its dot occurs only at its start. */
  lemma ManifestExtensionHeadIsUnique()
    ensures HeadIsUnique(ManifestExtension)
  {
  }

  /** A manifest `<dir>/<name>.sqlproj` whose name does not contain ".sqlproj" gives the project name `<name>`. */
  lemma ProjectNameOfManifest(dir: string, name: string)
    requires NoSeparator(name) && !Contains(name, ManifestExtension)
    ensures ProjectName(dir + "/" + name + ManifestExtension) == name
  {
    var tail := name + ManifestExtension;
    assert dir + "/" + name + ManifestExtension == (dir + "/") + tail;
    assert name + ManifestExtension + "" == tail;
    assert NoSeparator(ManifestExtension);
    NoSeparatorConcat(name, ManifestExtension);
    LastSegmentAfterSeparator(dir + "/", tail);
    ManifestExtensionHeadIsUnique();
    RemoveAllSkipsOccurrence(name, ManifestExtension, "");
    assert tail + "" == tail && RemoveAll("", ManifestExtension) == "";
  }

  /** The directory EnusreOutputPath creates and the artifact path it returns. */
  datatype OutputPlan = OutputPlan(directory: string, target: string)

  /** The effective output path: the explicit one if given (`??=`), else the default. */
  function EffectiveOutputPath(projectPath: string, outputPath: Option<string>): (r: string)
    ensures outputPath.Some? ==> r == outputPath.value
    ensures outputPath.None? ==> EndsWith(r, "bin")
  {
    if outputPath.Some? then outputPath.value else DefaultOutputPath(projectPath)
  }

  /**
   * A path ending in ".dacpac" (any case) is the artifact itself and its parent is
   * created; any other path is a folder that is created and receives
   * `<project name>.dacpac`.
   */
  function PlanOutput(projectPath: string, outputPath: Option<string>): (plan: OutputPlan)
    ensures EndsWithIgnoreCase(plan.target, PackageExtension)
    ensures var path := EffectiveOutputPath(projectPath, outputPath);
      EndsWithIgnoreCase(path, PackageExtension) ==> plan == OutputPlan(DirectoryName(path), path)
    ensures var path := EffectiveOutputPath(projectPath, outputPath);
      !EndsWithIgnoreCase(path, PackageExtension) ==>
        && plan.directory == path
        && LastSegment(plan.target) == ProjectName(projectPath) + PackageExtension
        && (path != "" ==> StartsWith(plan.target, path))
        && (path != "" ==>
              |plan.target| == |path| + |ProjectName(projectPath) + PackageExtension|
                               + (if IsSeparator(path[|path| - 1]) then 0 else 1))
  {
    var path := EffectiveOutputPath(projectPath, outputPath);
    if EndsWithIgnoreCase(path, PackageExtension) then OutputPlan(DirectoryName(path), path)
    else
      var fileName := ProjectName(projectPath) + PackageExtension;
      PackageFileName(path, ProjectName(projectPath));
      OutputPlan(path, Combine(path, fileName))
  }

  lemma NoSeparatorConcat(a: string, b: string)
    requires NoSeparator(a) && NoSeparator(b)
    ensures NoSeparator(a + b)
  {
    forall i | 0 <= i < |a + b| ensures !IsSeparator((a + b)[i]) {
      if i >= |a| {
        assert (a + b)[i] == b[i - |a|];
      }
    }
  }

  /** `<name>.dacpac` inside any folder: the path ends with ".dacpac" and its last segment is that file name. */
  lemma PackageFileName(folder: string, name: string)
    requires NoSeparator(name)
    ensures var r := Combine(folder, name + PackageExtension);
      EndsWithIgnoreCase(r, PackageExtension) && LastSegment(r) == name + PackageExtension
    ensures !IsRooted(name + PackageExtension)
  {
    var fileName := name + PackageExtension;
    assert NoSeparator(PackageExtension);
    NoSeparatorConcat(name, PackageExtension);
    FileNameIsLastSegment(folder, fileName);
    assert !IsSeparator(fileName[0]);
    var r := Combine(folder, fileName);
    assert EndsWith(fileName, PackageExtension) by {
      assert fileName[|fileName| - |PackageExtension|..] == PackageExtension;
    }
    EndsWithTransitive(r, fileName, PackageExtension);
    ExactSuffixMatchesIgnoringCase(r, PackageExtension);
  }

  /** A separator-free file name combined onto any folder is the resulting path's last segment. */
  lemma FileNameIsLastSegment(folder: string, fileName: string)
    requires NoSeparator(fileName) && fileName != ""
    ensures LastSegment(Combine(folder, fileName)) == fileName
  {
    assert !IsRooted(fileName) by {
      assert !IsSeparator(fileName[0]);
    }
    if folder == "" {
      assert LastSeparator(fileName) == -1;
    } else if IsSeparator(folder[|folder| - 1]) {
      LastSegmentAfterSeparator(folder, fileName);
    } else {
      LastSegmentAfterSeparator(folder + "/", fileName);
    }
  }

  /** An explicit output path takes priority; the default is used only when none is given. */
  lemma ExplicitOutputPathWins(projectPath: string, otherProject: string, outputPath: string)
    requires EndsWithIgnoreCase(outputPath, PackageExtension)
    ensures PlanOutput(projectPath, Some(outputPath)) == PlanOutput(otherProject, Some(outputPath))
    ensures PlanOutput(projectPath, Some(outputPath)).target == outputPath
  {
  }

  /** The package suffix is matched ignoring case: `*.DACPAC` is an artifact path, used as given. */
  lemma PackageSuffixIgnoresCase(projectPath: string, outputPath: string)
    requires EndsWith(outputPath, ".DACPAC")
    ensures PlanOutput(projectPath, Some(outputPath)) == OutputPlan(DirectoryName(outputPath), outputPath)
  {
    var n := |outputPath|;
    assert EqualsIgnoreCase(outputPath[n - 7..], PackageExtension) by {
      assert outputPath[n - 7..] == ".DACPAC";
    }
  }

  /** The folder and the file name of a manifest path `<dir>/<name>.sqlproj`. */
  lemma ManifestPathParts(dir: string, name: string)
    requires dir != "" && !IsSeparator(dir[|dir| - 1]) && NoSeparator(name)
    ensures var projectPath := dir + "/" + name + ManifestExtension;
      EndsWith(projectPath, ManifestExtension) && DirectoryName(projectPath) == dir
  {
    var projectPath := dir + "/" + name + ManifestExtension;
    var tail := name + ManifestExtension;
    assert projectPath == (dir + "/") + tail;
    assert projectPath[|projectPath| - |ManifestExtension|..] == ManifestExtension;
    assert NoSeparator(ManifestExtension);
    NoSeparatorConcat(name, ManifestExtension);
    LastSegmentAfterSeparator(dir + "/", tail);
    assert projectPath[..|dir|] == dir;
  }

  /** No output path and a manifest `<dir>/<name>.sqlproj` give `<dir>/bin/<name>.dacpac`. */
  lemma DefaultTargetOfManifest(dir: string, name: string)
    requires dir != "" && !IsSeparator(dir[|dir| - 1])
    requires NoSeparator(name) && !Contains(name, ManifestExtension)
    ensures PlanOutput(dir + "/" + name + ManifestExtension, None)
      == OutputPlan(dir + "/bin", dir + "/bin/" + name + PackageExtension)
  {
    DefaultOutputOfManifest(dir, name);
    BinFolderIsNotPackage(dir);
    ProjectNameOfManifest(dir, name);
    PackageInBinFolder(dir, name);
  }

  /** The default output folder of `<dir>/<name>.sqlproj` is `<dir>/bin`. */
  lemma DefaultOutputOfManifest(dir: string, name: string)
    requires dir != "" && !IsSeparator(dir[|dir| - 1]) && NoSeparator(name)
    ensures DefaultOutputPath(dir + "/" + name + ManifestExtension) == dir + "/bin"
  {
    ManifestPathParts(dir, name);
    assert !IsRooted("bin");
    assert (dir + "/") + "bin" == dir + "/bin";
  }

  /** `<name>.dacpac` combined onto `<dir>/bin`. */
  lemma PackageInBinFolder(dir: string, name: string)
    requires NoSeparator(name)
    ensures Combine(dir + "/bin", name + PackageExtension) == dir + "/bin/" + name + PackageExtension
  {
    var path := dir + "/bin";
    var fileName := name + PackageExtension;
    assert path[|path| - 1] == 'n';
    assert !IsRooted(fileName) by {
      if name == "" {
        assert fileName[0] == '.';
      } else {
        assert fileName[0] == name[0];
      }
    }
    assert (path + "/") + fileName == dir + "/bin/" + name + PackageExtension;
  }

  /** A `bin` folder path never looks like a package path. */
  lemma BinFolderIsNotPackage(dir: string)
    ensures !EndsWithIgnoreCase(dir + "/bin", PackageExtension)
  {
    var path := dir + "/bin";
    if |PackageExtension| <= |path| {
      assert path[|path| - |PackageExtension|..][|PackageExtension| - 1] == 'n';
    }
  }

  /**
   * The file-system effect of EnusreOutputPath: the planned directory is
   * created (or the creation error surfaces) and the artifact path is returned.
   */
  function ResolveOutput(d: Disk, projectPath: string, outputPath: Option<string>): (res: (Disk, Result<string>))
    ensures res.1.Ok? ==> res.1.value == PlanOutput(projectPath, outputPath).target
    ensures res.1.Ok? ==> PlanOutput(projectPath, outputPath).directory in res.0.dirs
    ensures res.1.Err? <==> WithDirectory(d, PlanOutput(projectPath, outputPath).directory).Err?
    ensures res.1.Err? ==> res == (d, Err(WithDirectory(d, PlanOutput(projectPath, outputPath).directory).error))
    ensures res.0 == d.(dirs := res.0.dirs) && d.dirs <= res.0.dirs
  {
    var plan := PlanOutput(projectPath, outputPath);
    match WithDirectory(d, plan.directory)
    case Err(e) => (d, Err(e))
    case Ok(d') => (d', Ok(plan.target))
  }

  /**
   * An output path that is a bare `*.dacpac` file name has an empty directory
   * name, so creating its folder fails before anything else happens.
   */
  lemma BareArtifactNameFails(d: Disk, projectPath: string, name: string)
    requires NoSeparator(name) && EndsWithIgnoreCase(name, PackageExtension)
    ensures ResolveOutput(d, projectPath, Some(name)) == (d, Err(EmptyDirectoryPath))
  {
    assert LastSeparator(name) < 0;
  }

  /** Resolving again once the output folder exists succeeds and leaves the file system as it is. */
  lemma ResolveOutputIdempotent(d: Disk, projectPath: string, outputPath: Option<string>)
    requires d.Valid()
    requires ResolveOutput(d, projectPath, outputPath).1.Ok?
    ensures var d' := ResolveOutput(d, projectPath, outputPath).0;
      d'.Valid() && ResolveOutput(d', projectPath, outputPath) == (d', Ok(PlanOutput(projectPath, outputPath).target))
  {
    var plan := PlanOutput(projectPath, outputPath);
    WithDirectoryPreservesValid(d, plan.directory);
    WithDirectoryIdempotent(WithDirectory(d, plan.directory).value, plan.directory);
  }

  /** EnusreOutputPath. */
  method EnsureOutputPath(fs: FileSystem, projectPath: string, outputPath: Option<string>) returns (r: Result<string>)
    modifies fs
    ensures (fs.State(), r) == ResolveOutput(old(fs.State()), projectPath, outputPath)
  {
    var path := if outputPath.Some? then outputPath.value else DefaultOutputPath(projectPath);
    if EndsWithIgnoreCase(path, PackageExtension) {
      var failure := fs.CreateDirectory(DirectoryName(path));
      if failure.Some? {
        return Err(failure.value);
      }
      return Ok(path);
    }
    var failure := fs.CreateDirectory(path);
    if failure.Some? {
      return Err(failure.value);
    }
    var projectName := ProjectName(projectPath);
    r := Ok(Combine(path, projectName + PackageExtension));
  }
}

=== FILE: path_strings.dfy ===
/**
 * The string and path primitives the build pipeline relies on: suffix tests,
 * substring search, String.Replace with an empty replacement, and simplified
 * versions of Path.GetDirectoryName, Path.Combine and Path.GetFullPath.
 * Both '/' and '\' count as separators; Combine joins with '/'.
 */
module PathStrings {

  predicate IsSeparator(c: char) {
    c == '/' || c == '\\'
  }

  predicate NoSeparator(s: string) {
    forall i :: 0 <= i < |s| ==> !IsSeparator(s[i])
  }

  /** A rooted path starts with a separator (drive letters are not modelled). */
  predicate IsRooted(p: string) {
    |p| > 0 && IsSeparator(p[0])
  }

  predicate StartsWith(s: string, prefix: string) {
    |prefix| <= |s| && s[..|prefix|] == prefix
  }

  /** String.EndsWith(string), compared character by character and case-sensitively. */
  predicate EndsWith(s: string, suffix: string) {
    |suffix| <= |s| && s[|s| - |suffix|..] == suffix
  }

  /** A string ends with `suffix` exactly when it is something followed by `suffix`. */
  lemma EndsWithIffAppended(s: string, suffix: string)
    ensures EndsWith(s, suffix) <==> exists front :: s == front + suffix
  {
    if EndsWith(s, suffix) {
      assert s == s[..|s| - |suffix|] + suffix;
    }
    if exists front :: s == front + suffix {
      var front :| s == front + suffix;
      assert s[|s| - |suffix|..] == suffix;
    }
  }

  /** Case folding of the invariant culture, restricted to ASCII letters. */
  function ToLowerInvariant(c: char): char {
    if 'A' <= c <= 'Z' then (c as int + 32) as char else c
  }

  predicate EqualsIgnoreCase(a: string, b: string) {
    |a| == |b| && forall i :: 0 <= i < |a| ==> ToLowerInvariant(a[i]) == ToLowerInvariant(b[i])
  }

  /** String.EndsWith(suffix, StringComparison.InvariantCultureIgnoreCase). */
  predicate EndsWithIgnoreCase(s: string, suffix: string) {
    |suffix| <= |s| && EqualsIgnoreCase(s[|s| - |suffix|..], suffix)
  }

  /** Ordinal String.Contains: `sub` occurs somewhere in `s`. */
  predicate Contains(s: string, sub: string)
    decreases |s|
  {
    StartsWith(s, sub) || (|s| > 0 && Contains(s[1..], sub))
  }

  /** `sub` occurs in `s` starting at position `i`. */
  predicate OccursAt(s: string, sub: string, i: int) {
    0 <= i && i + |sub| <= |s| && s[i..i + |sub|] == sub
  }

  /** `Contains` holds exactly when `sub` occurs at some position of `s`. */
  lemma {:induction false} ContainsIffOccurrence(s: string, sub: string)
    ensures Contains(s, sub) <==> exists i :: OccursAt(s, sub, i)
    decreases |s|
  {
    if Contains(s, sub) {
      if StartsWith(s, sub) {
        assert OccursAt(s, sub, 0);
      } else {
        ContainsIffOccurrence(s[1..], sub);
        var i :| OccursAt(s[1..], sub, i);
        assert s[i + 1..i + 1 + |sub|] == s[1..][i..i + |sub|];
        assert OccursAt(s, sub, i + 1);
      }
    }
    if exists i :: OccursAt(s, sub, i) {
      var i :| OccursAt(s, sub, i);
      if i == 0 {
        assert StartsWith(s, sub);
      } else {
        assert s[1..][i - 1..i - 1 + |sub|] == s[i..i + |sub|];
        assert OccursAt(s[1..], sub, i - 1);
        ContainsIffOccurrence(s[1..], sub);
      }
    }
  }

  lemma {:induction false} ContainsExtend(s: string, t: string, sub: string)
    requires Contains(s, sub)
    ensures Contains(s + t, sub)
    decreases |s|
  {
    if StartsWith(s, sub) {
      assert (s + t)[..|sub|] == s[..|sub|];
    } else {
      ContainsExtend(s[1..], t, sub);
      assert (s + t)[1..] == s[1..] + t;
    }
  }

  lemma EndsWithTransitive(s: string, t: string, u: string)
    requires EndsWith(s, t) && EndsWith(t, u)
    ensures EndsWith(s, u)
  {
    assert s[|s| - |u|..] == t[|t| - |u|..];
  }

  lemma ExactSuffixMatchesIgnoringCase(s: string, suffix: string)
    requires EndsWith(s, suffix)
    ensures EndsWithIgnoreCase(s, suffix)
  {
  }

  /** Index of the last separator in `p`, or -1 when there is none. */
  function LastSeparator(p: string): (k: int)
    ensures -1 <= k < |p|
    ensures k >= 0 ==> IsSeparator(p[k])
    ensures forall j :: k < j < |p| ==> !IsSeparator(p[j])
  {
    if p == [] then -1
    else if IsSeparator(p[|p| - 1]) then |p| - 1
    else LastSeparator(p[..|p| - 1])
  }

  /** `Split(new[] { '\\', '/' }).Last()`: the longest separator-free suffix. */
  function LastSegment(p: string): (r: string)
    ensures NoSeparator(r) && EndsWith(p, r)
    ensures |r| < |p| ==> IsSeparator(p[|p| - |r| - 1])
  {
    p[LastSeparator(p) + 1..]
  }

  /** A separator followed by a separator-free tail: the tail is the last segment. */
  lemma {:induction false} LastSegmentAfterSeparator(s: string, t: string)
    requires |s| > 0 && IsSeparator(s[|s| - 1]) && NoSeparator(t)
    ensures LastSeparator(s + t) == |s| - 1
    ensures LastSegment(s + t) == t
    decreases |t|
  {
    if t == [] {
      assert s + t == s;
    } else {
      var t' := t[..|t| - 1];
      assert (s + t)[..|s + t| - 1] == s + t';
      LastSegmentAfterSeparator(s, t');
    }
  }

  /** `s` without its trailing separators, never shorter than `keep` characters. */
  function TrimEndSeparators(s: string, keep: nat): (r: string)
    ensures |r| <= |s| && r == s[..|r|]
    ensures |r| >= keep || r == s
    ensures forall i :: |r| <= i < |s| ==> IsSeparator(s[i])
    ensures |r| > keep ==> !IsSeparator(r[|r| - 1])
    decreases |s|
  {
    if |s| > keep && IsSeparator(s[|s| - 1]) then TrimEndSeparators(s[..|s| - 1], keep) else s
  }

  /**
   * Path.GetDirectoryName: everything before the last separator with the
   * separators that precede it trimmed as well, the root itself when that
   * separator is the first character, and "" when there is no separator.
   */
  function DirectoryName(p: string): (r: string)
    ensures LastSeparator(p) < 0 <==> r == ""
    ensures LastSeparator(p) == 0 ==> p == r + LastSegment(p)
    ensures LastSeparator(p) > 0 ==>
      && 0 < |r| <= LastSeparator(p) && r == p[..|r|]
      && (forall i :: |r| <= i <= LastSeparator(p) ==> IsSeparator(p[i]))
      && (|r| > 1 || !IsRooted(p) ==> !IsSeparator(r[|r| - 1]))
  {
    var k := LastSeparator(p);
    if k < 0 then ""
    else if k == 0 then p[..1]
    else
      TrimEndSeparators(p[..k], if IsRooted(p) then 1 else 0)
  }

  /**
   * Path.Combine(a, b): `a` when `b` is empty, `b` alone when it is rooted or
   * `a` is empty, otherwise `a` and `b` joined by exactly one separator.
   */
  function Combine(a: string, b: string): (r: string)
    ensures EndsWith(r, b)
    ensures b == "" ==> r == a
    ensures !IsRooted(b) && a != "" && b != "" ==>
      && StartsWith(r, a)
      && |r| == |a| + |b| + (if IsSeparator(a[|a| - 1]) then 0 else 1)
      && IsSeparator(r[|r| - |b| - 1])
  {
    if b == "" then a
    else if IsRooted(b) || a == "" then b
    else if IsSeparator(a[|a| - 1]) then a + b
    else a + "/" + b
  }

  /** Path.GetFullPath(rel, base) without the normalisation of "." and "..". */
  function FullPath(rel: string, base: string): (r: string)
    ensures IsRooted(rel) ==> r == rel
    ensures !IsRooted(rel) && base != "" ==> StartsWith(r, base) && EndsWith(r, rel)
  {
    Combine(base, rel)
  }

  /**
   * `s.Replace(pat, "")`: one left-to-right pass that deletes every
   * non-overlapping occurrence of `pat`, interior ones included.
   */
  function RemoveAll(s: string, pat: string): (r: string)
    requires pat != []
    ensures |r| <= |s|
    decreases |s|
  {
    if |s| < |pat| then s
    else if s[..|pat|] == pat then RemoveAll(s[|pat|..], pat)
    else [s[0]] + RemoveAll(s[1..], pat)
  }

  /** Removal never lengthens a string, adds no character, and leaves a string without `pat` as it is. */
  lemma {:induction false} RemoveAllShrinks(s: string, pat: string)
    requires pat != []
    ensures var r := RemoveAll(s, pat);
      && |r| <= |s|
      && (forall i :: 0 <= i < |r| ==> r[i] in s)
      && (!Contains(s, pat) ==> r == s)
    decreases |s|
  {
    var r := RemoveAll(s, pat);
    if |s| < |pat| {
    } else if s[..|pat|] == pat {
      RemoveAllShrinks(s[|pat|..], pat);
      assert StartsWith(s, pat);
      forall i | 0 <= i < |r| ensures r[i] in s {
        assert r[i] in s[|pat|..];
      }
    } else {
      var t := RemoveAll(s[1..], pat);
      RemoveAllShrinks(s[1..], pat);
      assert r == [s[0]] + t;
      forall i | 0 <= i < |r| ensures r[i] in s {
        if i > 0 {
          assert r[i] == t[i - 1] && t[i - 1] in s[1..];
        }
      }
      if !Contains(s, pat) {
        assert !Contains(s[1..], pat);
        assert s == [s[0]] + s[1..];
      }
    }
  }

  /** A string made only of characters of a separator-free string is separator-free. */
  lemma NoSeparatorOfChars(s: string, r: string)
    requires NoSeparator(s)
    requires forall i :: 0 <= i < |r| ==> r[i] in s
    ensures NoSeparator(r)
  {
    forall i | 0 <= i < |r| ensures !IsSeparator(r[i]) {
      var j :| 0 <= j < |s| && s[j] == r[i];
    }
  }

  /** The first character of `pat` occurs nowhere else in it, so two occurrences never overlap. */
  predicate HeadIsUnique(pat: string) {
    forall k :: 0 < k < |pat| ==> pat[k] != pat[0]
  }

  /**
   * A non-empty stretch without `pat`, followed by `pat`: no occurrence starts
   * at its first character, not even one reaching into the `pat` after it.
   */
  lemma NoMatchAtStart(name: string, pat: string, rest: string)
    requires pat != [] && HeadIsUnique(pat) && name != [] && !Contains(name, pat)
    ensures (name + pat + rest)[..|pat|] != pat
  {
    var s := name + pat + rest;
    if |name| >= |pat| {
      assert s[..|pat|] == name[..|pat|];
      assert !StartsWith(name, pat);
    } else {
      assert s[..|pat|][|name|] == pat[0];
    }
  }

  /** A text that does not contain `sub` has a tail that does not contain it either. */
  lemma NotContainedInTail(s: string, sub: string)
    requires s != [] && !Contains(s, sub)
    ensures !Contains(s[1..], sub)
  {
  }

  /** An occurrence of `pat` at the very start is deleted and the pass continues after it. */
  lemma RemoveAllDropsLeading(pat: string, rest: string)
    requires pat != []
    ensures RemoveAll(pat + rest, pat) == RemoveAll(rest, pat)
  {
    var s := pat + rest;
    assert s[..|pat|] == pat && s[|pat|..] == rest;
  }

  /** A name that does not start an occurrence of `pat` keeps its first character. */
  lemma RemoveAllKeepsHead(name: string, pat: string, rest: string)
    requires pat != [] && HeadIsUnique(pat) && name != [] && !Contains(name, pat)
    ensures RemoveAll(name + pat + rest, pat) == [name[0]] + RemoveAll(name[1..] + pat + rest, pat)
  {
    var s := name + pat + rest;
    NoMatchAtStart(name, pat, rest);
    assert |s| >= |pat| && s[0] == name[0] && s[1..] == name[1..] + pat + rest;
  }

  /**
   * An occurrence of `pat` after a stretch that contains none is deleted, and
   * the pass goes on after it: interior occurrences are removed too.
   */
  lemma {:induction false} RemoveAllSkipsOccurrence(name: string, pat: string, rest: string)
    requires pat != [] && HeadIsUnique(pat) && !Contains(name, pat)
    ensures RemoveAll(name + pat + rest, pat) == name + RemoveAll(rest, pat)
    decreases |name|
  {
    if name == [] {
      RemoveAllDropsLeading(pat, rest);
      assert name + pat + rest == pat + rest;
    } else {
      var tail, removed := name[1..], RemoveAll(rest, pat);
      RemoveAllKeepsHead(name, pat, rest);
      NotContainedInTail(name, pat);
      RemoveAllSkipsOccurrence(tail, pat, rest);
      assert [name[0]] + (tail + removed) == name + removed by {
        assert [name[0]] + tail == name;
      }
    }
  }

}

=== FILE: sql_models.dfy ===
/**
 * The SQL compiler the pipeline drives (TSqlModel and BuildPackage), reduced
 * to what the pipeline can observe: whether a script is accepted on top of
 * the scripts already in the model, and whether the accumulated model can be
 * packaged.
 */
module SqlModels {

  /** The target platform a model is built for; its meaning belongs to the compiler. */
  datatype SqlServerVersion = SqlServerVersion(name: string)

  /** The compiler's decisions, supplied from outside the pipeline. */
  datatype Compiler = Compiler(
    accepts: (SqlServerVersion, seq<string>, string) -> bool,
    packages: (SqlServerVersion, seq<string>) -> bool)

  /** A packaged model: the platform and the scripts it was built from, in submission order. */
  datatype Artifact = Artifact(version: SqlServerVersion, scripts: seq<string>)

  /** The accumulating TSqlModel of one build. */
  class SqlModel {
    const version: SqlServerVersion
    var scripts: seq<string>

    constructor (version: SqlServerVersion)
      ensures this.version == version && scripts == []
    {
      this.version := version;
      scripts := [];
    }

    /** TSqlModel.AddObjects: the script joins the model exactly when the compiler accepts it. */
    method AddObjects(script: string, compiler: Compiler) returns (accepted: bool)
      modifies this
      ensures accepted == compiler.accepts(version, old(scripts), script)
      ensures scripts == if accepted then old(scripts) + [script] else old(scripts)
    {
      accepted := compiler.accepts(version, scripts, script);
      if accepted {
        scripts := scripts + [script];
      }
    }
  }
}
